=== FILE: README.md ===
# RBtree insertion core in Dafny

This project models the insertion path of the RBtree C library (`tree.c`
and `tree.h`): the binary-search descent `__tree_insert`, the public wrapper
`tree_insert`, the two rotations `tree_rotate_left` / `tree_rotate_right`,
the post-insert fixup `tree_validate_insertion`, and the header's navigation
helpers `tree_parent`, `tree_grandparent`, `tree_node_has_sibling` and
`tree_parent_on_left`.

The model follows the code as written, including where it departs from a
textbook red-black tree:

- `__tree_insert` never writes the new node's parent link, which
  `tree_insert` has just cleared.  So `tree_validate_insertion` always
  returns at its first test, and `tree_insert` is a plain ordered attach
  with no rebalancing.
- Each rotation swaps the colours of the two nodes it moves.  It does not
  re-parent the inner subtree it hands over, so that subtree keeps a
  stale parent link.
- The fixup dereferences the uncle without a NULL test.
- The branch for a parent on the grandparent's right repeats the left-branch
  rotations instead of mirroring them.
- `root->size` is never updated.

The project describes this behaviour and makes no red-black claims.

Two layers, in five modules:

- Value layer: `shape.dfy` (module `Shape`) is the tree as an immutable value
  `Tree = Nil | Node(left, key, color, right)`.  It holds the descent
  (`Attach`), the insert (`Insert`), the value-level rotations, the ordering
  rule (left keys at most the node's key, right keys strictly greater), the
  in-order key sequence, and paths naming one child slot.
- Memory layer: `tree_h.dfy` (module `TreeH`) is memory: a finite map from addresses to
  node records with explicit `left`, `right` and `parent` links.  It also
  holds the header helpers.
- Between the layers: `abstraction.dfy` (module `Abstraction`) relates them.
  `Repr(h, p, t)` says the records reachable from `p` by child links form
  `t`, with no record shared.  `Footprint` gives the set of addresses of
  those records.  Parent links are not part of the relation.
- Memory layer: `rotate.dfy` (module `Rotate`) gives the rotations on the heap as the
  literal sequence of field writes of the C code.
- Memory layer: `insertion.dfy` (module `Insertion`) gives the descent, the fixup and
  `tree_insert` on the heap.  Every dereference the C code does without a
  check becomes a `Fault` outcome of the fixup.  The fixup's unbounded loop
  is given an iteration budget; `tree_insert` passes the number of records
  in the heap as that budget.

## Model

| member | source | states |
|---|---|---|
| TreeH.Parent | tree.h:56-63 | NULL for a NULL node, otherwise the node's parent link |
| TreeH.Grandparent | tree.h:65-73 | NULL when the node or its parent is absent; otherwise the parent's parent |
| TreeH.GrandparentIsParentOfParent | tree.h:65-73 | the grandparent is two parent steps, and NULL as soon as the parent is NULL |
| TreeH.GrandparentOfGrandchild | tree.h:65-73 | when every child points back at its parent, the grandparent of any child of a child of a node is that node |
| TreeH.Sibling | tree.h:81-97 | NULL for a NULL node or a node without a parent; otherwise the parent's other child, which may itself be NULL |
| TreeH.SiblingSymmetric | tree.h:87-92 | when the sibling of A is a non-NULL B that names A's parent as its parent, the sibling of B is A |
| TreeH.ParentOnLeft | tree.h:99-105 | 1 exactly when the node has a parent and is that parent's right child, 0 otherwise |
| TreeH.ParentOnLeftIffSiblingIsLeft | tree.h:99-105 | under a parent with two different children, the result is 1 exactly when the sibling is the parent's left child, and 0 exactly when it is the right child |
| Shape.Attach | tree.c:49-63 | the descent below an existing node yields a non-empty tree with one more key |
| Shape.Insert | tree.c:38-66 | an empty tree becomes a one-node BLACK tree; in every case the tree gains one key |
| Shape.AttachKeys | tree.c:49-63 | the descent adds exactly the new key: the key multiset is the old one plus the new key |
| Shape.InsertKeys | tree.c:38-66 | the same for the full insert, the empty tree included |
| Shape.AttachBst | tree.c:49-63 | the descent keeps the ordering rule: left keys at most the node's key, right keys strictly greater |
| Shape.InsertBst | tree.c:38-66 | insertion into an ordered tree gives an ordered tree |
| Shape.AttachInOrder | tree.c:49-63 | on an ordered tree the new in-order sequence is the old one with the key placed just before the first key at least as large, so a duplicate lands before equal keys |
| Shape.InsertInOrder | tree.c:38-66 | the same placement holds for the full insert, the empty tree included |
| Shape.AttachFillsSlot | tree.c:49-63 | the descent is the old tree with the empty slot at the end of the descent path replaced by a RED leaf |
| Shape.InsertChangesOneSlot | tree.c:49-63 | in a non-empty tree only the slot at the end of the descent path changes: it becomes a RED leaf; subtrees off the path are unchanged; nodes on the path keep their keys and colours |
| Shape.RotateLeft | tree.c:68-93 | the right child moves up and takes the node's colour; the node becomes its left child with the child's colour, keeping its left subtree and taking the child's former left subtree; the in-order key sequence is unchanged |
| Shape.RotateRight | tree.c:124-150 | the mirror image: the left child moves up with the node's colour, the node moves down with the child's colour and takes the child's former right subtree; the in-order key sequence is unchanged |
| Shape.RotationsInverse | tree.c:68-150 | a right rotation at the new top undoes a left rotation, colours included, and conversely |
| Shape.RotateLeftBst | tree.c:68-93 | a left rotation keeps the ordering rule |
| Shape.RotateRightBst | tree.c:124-150 | a right rotation keeps the ordering rule when the two nodes it moves have different keys |
| Shape.RotateRightEqualKeysBreaksBst | tree.c:124-150 | with two equal keys a right rotation breaks the ordering rule, because the equal key lands in the strictly-greater right subtree |
| Rotate.RotateLeftAt | tree.c:68-93 | no record is created or lost, and no key changes.  The right child is the new top and takes the node's parent and colour.  The node takes the child's former left subtree, the child as parent, and the child's colour.  The parent's slot, or `root->tree` when there is no parent, now names the child.  Every other record is unchanged |
| Rotate.RotateRightAt | tree.c:124-150 | the mirror image of the left rotation, field by field |
| Rotate.RotateRightUndoesLeft | tree.c:68-150 | with consistent links around the node, a right rotation at the returned top restores memory, root and colours exactly |
| Rotate.RotateLeftLeavesInnerParentStale | tree.c:72-73 | the subtree handed to the node as its new right child still names the node moved up as its parent |
| Rotate.RotateRightLeavesInnerParentStale | tree.c:128-130 | the subtree handed to the node as its new left child still names the node moved up as its parent |
| Rotate.RotateLeftRefines | tree.c:68-93 | on a represented tree, the records under the returned top represent the value-level left rotation, with the same records |
| Rotate.RotateRightRefines | tree.c:124-150 | on a represented tree, the records under the returned top represent the value-level right rotation, with the same records |
| Insertion.DescentSlot | tree.c:49-63 | the record whose slot the descent fills is part of the tree, and its slot on the side the key picks is NULL |
| Insertion.FillFillsSlot | tree.c:50-59 | the descent's one write puts the node into an empty slot of that record and changes no other record |
| Insertion.AttachRefines | tree.c:49-63 | on memory the descent and its write build a representation of the value-level attach, with the new record added to the tree's records |
| Insertion.InsertDescent | tree.c:38-66 | an empty root takes the node, coloured BLACK; otherwise the loop finds the slot, the tree becomes the value-level insert, the new record is untouched, and only one empty slot of one existing record changes |
| Insertion.BlackenRoot | tree.c:200 | faults exactly when the root link cannot be followed (NULL, or outside memory); otherwise the top record turns BLACK and nothing else changes: no other field of it and no other record |
| Insertion.RecolourRedUncle | tree.c:166-168 | only colours change: the grandparent turns RED; the parent and the uncle turn BLACK unless one of them is the grandparent |
| Insertion.BlackUncleStep | tree.c:170-179 | the black-uncle step keeps every record and key |
| Insertion.FixupLoop | tree.c:160-200 | the loop stops and blackens the top when the node is the top or its parent is not RED, and faults when the node has no parent to read; when it ends normally, no key has changed and the top record is BLACK |
| Insertion.BlackUncleContinues | tree.c:160-179 | with a RED parent and a BLACK uncle, the loop takes the black-uncle step and continues at the node that step returns, or faults when the step does |
| Insertion.LeftRightBlackUncleLiftsNode | tree.c:170-178 | with the node right of a parent that is left of the top, the step moves to the parent and rotates left there, then rotates right at the grandparent: the node is the new top with the parent on its left and the grandparent on its right, and the loop goes on at the parent |
| Insertion.LeftLeftBlackUncleFaults | tree.c:160-178 | with the node left of a RED parent, the parent left of the top and a BLACK uncle, the rotation's colour swap undoes the recolouring: the parent ends up RED on top with a NULL parent link, the grandparent BLACK, and the next iteration faults for want of a grandparent |
| Insertion.ValidateInsertion | tree.c:152-201 | a node without a parent link returns at once with memory and root untouched; otherwise a normal (`Done`) ending keeps keys and leaves the top record BLACK |
| Insertion.UncleIsSiblingOfParent | tree.c:161-164 | the uncle the fixup reads is the sibling of the parent |
| Insertion.RedUncleContinuesAtGrandparent | tree.c:163-169 | with a RED parent and a RED uncle, the loop recolours and continues at the grandparent |
| Insertion.AbsentUncleFaults | tree.c:164-165 | a RED parent with no sibling makes the fixup dereference NULL |
| Insertion.MirrorBranchLiftsUncle | tree.c:189-196 | for a parent on the right of the grandparent, a left child and a BLACK uncle on the left, the step rotates right at the grandparent, so the uncle becomes the top |
| Insertion.Reset | tree.c:29-32 | the node keeps its key and gets NULL left, right and parent links and the colour RED; no other record changes |
| Insertion.ResetFrame | tree.c:29-32 | resetting a node outside the tree leaves the tree represented |
| Insertion.TreeInsert | tree.c:27-36 | the result is always 0.  The tree becomes the value-level insert.  The new record is a leaf with a NULL parent link, BLACK exactly when it became the top and RED otherwise.  Apart from it only one empty slot of one record changes, so no other record changes key, colour or parent link.  The element count is not updated, so it falls one behind both the number of keys and the number of records in the tree |

## Left out

- `main.c`: a demonstration driver with fixed keys and console output.
- `tree_dump`, `tree_add_node`, `tree_cleanup` (tree.c:203-273): console output and memory allocation and release.
- The `data` payload and the unused `root` field of `struct rbtree`, and the unused `tree_leaf_t` enum: nothing in the core reads them.
- Red-black invariants (no red-red edge, equal black height) as properties of `tree_insert` or the fixup: the code does not establish them.
- Insertion.FixupLoop: the C loop has no bound.  The model takes an iteration budget and returns `OutOfFuel` when it runs out, so runs longer than the budget are not described.
- Insertion.ValidateInsertion: it hands its iteration budget to the loop; a run that exhausts it ends in `OutOfFuel`, which is not described further.
- Insertion.BlackUncleStep: its contract states only that records and keys are kept.  Its exact effect is stated for three configurations under a parentless grandparent: the outer left case (Insertion.LeftLeftBlackUncleFaults), the inner left case (Insertion.LeftRightBlackUncleLiftsNode) and the mirror branch (Insertion.MirrorBranchLiftsUncle).  Its effect in other configurations, such as a grandparent with a parent of its own, is not stated.
- Insertion.InsertDescent: stated only for a node prepared the way its one caller `tree_insert` prepares it (both child links NULL, colour RED), since that is the only way `__tree_insert` is reached.
- Shape.RotateRightBst: stated only for distinct keys of the two moved nodes, because with equal keys the ordering rule does not survive (Shape.RotateRightEqualKeysBreaksBst).
- The `int` key is unbounded in the model.  The code only compares keys, so the C width does not matter.
- Memory is a map from addresses to records.  Allocation, concurrency and pointers into foreign memory are not modelled.  Only in the fixup does a dereference outside the map count as a fault.  The descent and `tree_insert` require a well-formed tree whose records are all in the map.  The header helpers (`TreeH.Parent`, `TreeH.Grandparent`, `TreeH.Sibling`, `TreeH.ParentOnLeft`) and the rotations (`Rotate.RotateLeftAt`, `Rotate.RotateRightAt`) instead require every link they follow to be NULL or in the map, so their behaviour on foreign pointers is not described.

=== FILE: abstraction.dfy ===
/** How a heap of linked records represents a tree value.  The relation
    follows only the child links, keys and colours; parent links are not
    part of it, because the insertion path never sets them. */
module Abstraction {
  import opened TreeH
  import opened Shape

  datatype Option<T> = None | Some(value: T)

  /** The records reachable from `p` by child links form the tree `t`, read
      as: same shape, same keys, same colours, and no record shared between
      two positions.  The result is the set of addresses of those records,
      or `None` when `p` does not represent `t`. */
  ghost function Layout(h: Heap, p: Ptr, t: Tree): Option<set<Addr>>
    decreases t
  {
    match t
    case Nil => if p == Null then Some({}) else None
    case Node(l, k, c, r) =>
      if !Deref(h, p) || h[p.addr].key != k || h[p.addr].color != c then None
      else
        var fl, fr := Layout(h, h[p.addr].left, l), Layout(h, h[p.addr].right, r);
        if fl.None? || fr.None? then None
        else if p.addr in fl.value || p.addr in fr.value || !(fl.value !! fr.value) then None
        else Some({p.addr} + fl.value + fr.value)
  }

  /** `p` represents `t`. */
  ghost predicate Repr(h: Heap, p: Ptr, t: Tree)
  {
    Layout(h, p, t).Some?
  }

  /** The addresses of the records that make up `t` when read from `p`. */
  ghost function Footprint(h: Heap, p: Ptr, t: Tree): set<Addr>
  {
    if Layout(h, p, t).Some? then Layout(h, p, t).value else {}
  }

  /** One level of `Repr` and `Footprint`: an empty tree is NULL, and a
      node is a record with the node's key and colour whose child links
      represent the two subtrees, apart from each other and from the record. */
  lemma ReprUnfold(h: Heap, p: Ptr, t: Tree)
    requires Repr(h, p, t)
    ensures t == Nil ==> p == Null && Footprint(h, p, t) == {}
    ensures t.Node? ==>
      && Deref(h, p) && h[p.addr].key == t.key && h[p.addr].color == t.color
      && Repr(h, h[p.addr].left, t.left) && Repr(h, h[p.addr].right, t.right)
      && p.addr !in Footprint(h, h[p.addr].left, t.left)
      && p.addr !in Footprint(h, h[p.addr].right, t.right)
      && Footprint(h, h[p.addr].left, t.left) !! Footprint(h, h[p.addr].right, t.right)
      && Footprint(h, p, t)
         == {p.addr} + Footprint(h, h[p.addr].left, t.left) + Footprint(h, h[p.addr].right, t.right)
  {
  }

  /** Two records agree on everything the representation reads. */
  predicate SameShape(x: RbNode, y: RbNode)
  {
    x.left == y.left && x.right == y.right && x.key == y.key && x.color == y.color
  }

  /** The footprint lies inside the heap. */
  lemma {:induction false} FootprintInHeap(h: Heap, p: Ptr, t: Tree)
    requires Repr(h, p, t)
    ensures forall a | a in Footprint(h, p, t) :: a in h
    ensures t.Node? <==> p.Ptr?
    ensures p.Ptr? ==> p.addr in Footprint(h, p, t)
    decreases t
  {
    match t
    case Nil =>
    case Node(l, _, _, r) =>
      ReprUnfold(h, p, t);
      FootprintInHeap(h, h[p.addr].left, l);
      FootprintInHeap(h, h[p.addr].right, r);
  }

  /** A heap that agrees with `h` on the shape of every record of the
      footprint represents the same tree, with the same footprint. */
  lemma {:induction false} Frame(h: Heap, h': Heap, p: Ptr, t: Tree)
    requires Repr(h, p, t)
    requires forall a | a in Footprint(h, p, t) :: a in h && a in h' && SameShape(h'[a], h[a])
    ensures Repr(h', p, t)
    ensures Footprint(h', p, t) == Footprint(h, p, t)
    decreases t
  {
    match t
    case Nil =>
    case Node(l, _, _, r) =>
      ReprUnfold(h, p, t);
      var a := p.addr;
      Frame(h, h', h[a].left, l);
      Frame(h, h', h[a].right, r);
  }

  /** Different heap positions of a represented tree hold different records:
      the number of records in the footprint is the number of keys. */
  lemma {:induction false} FootprintSize(h: Heap, p: Ptr, t: Tree)
    requires Repr(h, p, t)
    ensures |Footprint(h, p, t)| == |InOrder(t)|
    decreases t
  {
    match t
    case Nil =>
    case Node(l, _, _, r) =>
      ReprUnfold(h, p, t);
      var a := p.addr;
      var fl, fr := Footprint(h, h[a].left, l), Footprint(h, h[a].right, r);
      FootprintSize(h, h[a].left, l);
      FootprintSize(h, h[a].right, r);
      assert |fl + fr| == |fl| + |fr|;
      assert |{a} + (fl + fr)| == 1 + |fl + fr|;
      assert {a} + fl + fr == {a} + (fl + fr);
  }

  /** A record with two NULL child links represents a one-node tree. */
  lemma LeafRepr(h: Heap, a: Addr)
    requires a in h && h[a].left == Null && h[a].right == Null
    ensures Repr(h, Ptr(a), Node(Nil, h[a].key, h[a].color, Nil))
    ensures Footprint(h, Ptr(a), Node(Nil, h[a].key, h[a].color, Nil)) == {a}
  {
  }

  /** A record whose child links represent `l` and `r`, with the three parts
      disjoint, represents the node built from them. */
  lemma NodeRepr(h: Heap, a: Addr, l: Tree, r: Tree)
    requires a in h && Repr(h, h[a].left, l) && Repr(h, h[a].right, r)
    requires a !in Footprint(h, h[a].left, l) && a !in Footprint(h, h[a].right, r)
    requires Footprint(h, h[a].left, l) !! Footprint(h, h[a].right, r)
    ensures Repr(h, Ptr(a), Node(l, h[a].key, h[a].color, r))
    ensures Footprint(h, Ptr(a), Node(l, h[a].key, h[a].color, r))
      == {a} + Footprint(h, h[a].left, l) + Footprint(h, h[a].right, r)
  {
  }

  /** Replacing the left subtree of the record at `a`: when `h'` keeps the
      record's right link, key and colour and every record of the right
      subtree, and the new left link represents `l'` apart from the rest,
      the record represents the node over `l'` and the old right subtree. */
  lemma GrowLeft(h: Heap, h': Heap, a: Addr, l': Tree, r: Tree)
    requires a in h && a in h'
    requires h'[a].right == h[a].right && h'[a].key == h[a].key && h'[a].color == h[a].color
    requires Repr(h, h[a].right, r) && a !in Footprint(h, h[a].right, r)
    requires forall b | b in Footprint(h, h[a].right, r) :: b in h && b in h' && h'[b] == h[b]
    requires Repr(h', h'[a].left, l') && a !in Footprint(h', h'[a].left, l')
    requires Footprint(h', h'[a].left, l') !! Footprint(h, h[a].right, r)
    ensures Repr(h', Ptr(a), Node(l', h[a].key, h[a].color, r))
    ensures Footprint(h', Ptr(a), Node(l', h[a].key, h[a].color, r))
      == {a} + Footprint(h', h'[a].left, l') + Footprint(h, h[a].right, r)
  {
    Frame(h, h', h[a].right, r);
    NodeRepr(h', a, l', r);
  }

  /** The mirror of `GrowLeft`: replacing the right subtree. */
  lemma GrowRight(h: Heap, h': Heap, a: Addr, l: Tree, r': Tree)
    requires a in h && a in h'
    requires h'[a].left == h[a].left && h'[a].key == h[a].key && h'[a].color == h[a].color
    requires Repr(h, h[a].left, l) && a !in Footprint(h, h[a].left, l)
    requires forall b | b in Footprint(h, h[a].left, l) :: b in h && b in h' && h'[b] == h[b]
    requires Repr(h', h'[a].right, r') && a !in Footprint(h', h'[a].right, r')
    requires Footprint(h, h[a].left, l) !! Footprint(h', h'[a].right, r')
    ensures Repr(h', Ptr(a), Node(l, h[a].key, h[a].color, r'))
    ensures Footprint(h', Ptr(a), Node(l, h[a].key, h[a].color, r'))
      == {a} + Footprint(h, h[a].left, l) + Footprint(h', h'[a].right, r')
  {
    Frame(h, h', h[a].left, l);
    NodeRepr(h', a, l, r');
  }
}

=== FILE: insertion.dfy ===
/** The insertion path of the tree source file on the heap: the descent of
    `__tree_insert`, the post-insert fixup `tree_validate_insertion`, and
    the public `tree_insert` that runs the two in turn.

    As written, the descent never sets the new node's parent link, so the
    fixup always returns at its first test and `tree_insert` is a plain
    ordered attach.  The fixup is still modelled step by step, with every
    unchecked dereference of the C code turned into a `Fault` outcome. */
module Insertion {
  import opened TreeH
  import opened Shape
  import opened Abstraction
  import opened Rotate

  // ---------------------------------------------------------------------
  // The descent
  // ---------------------------------------------------------------------

  /** The existing record whose empty child slot the descent fills. */
  ghost function DescentSlot(h: Heap, p: Ptr, t: Tree, k: int): (m: Addr)
    requires Repr(h, p, t) && t.Node?
    ensures m in h && m in Footprint(h, p, t)
    ensures k <= h[m].key ==> h[m].left == Null
    ensures h[m].key < k ==> h[m].right == Null
    decreases t
  {
    var a := p.addr;
    if k <= h[a].key then
      if h[a].left == Null then a else DescentSlot(h, h[a].left, t.left, k)
    else
      if h[a].right == Null then a else DescentSlot(h, h[a].right, t.right, k)
  }

  /** The one write of the descent: `tree->left = node` or
      `tree->right = node`, on the side the key comparison picks. */
  function Fill(h: Heap, m: Addr, n: Addr, k: int): Heap
    requires m in h
  {
    if k <= h[m].key then h[m := h[m].(left := Ptr(n))] else h[m := h[m].(right := Ptr(n))]
  }

  /** `h'` is `h` with one empty child slot of the record at `m` now
      holding `n`, and every other record other than `n` untouched. */
  ghost predicate FilledAt(h: Heap, h': Heap, m: Addr, n: Addr)
  {
    && m in h && m in h' && h'.Keys == h.Keys
    && ((h[m].left == Null && h'[m] == h[m].(left := Ptr(n)))
        || (h[m].right == Null && h'[m] == h[m].(right := Ptr(n))))
    && (forall a | a in h && a != m && a != n :: h'[a] == h[a])
  }

  /** `Fill` writes the new node into an empty slot of `m` and nowhere else. */
  lemma FillFillsSlot(h: Heap, m: Addr, n: Addr, k: int)
    requires m in h
    requires k <= h[m].key ==> h[m].left == Null
    requires h[m].key < k ==> h[m].right == Null
    ensures FilledAt(h, Fill(h, m, n, k), m, n)
  {
  }

  /** Filling a slot changes no key, colour or parent link. */
  lemma FilledKeepsFields(h: Heap, h': Heap, m: Addr, n: Addr)
    requires FilledAt(h, h', m, n)
    ensures forall a | a in h && a != n ::
      h'[a].key == h[a].key && h'[a].color == h[a].color && h'[a].parent == h[a].parent
  {
  }

  /** The write of `Fill` at `m` leaves every record of a set without `m`
      as it was. */
  lemma FillFrame(h: Heap, m: Addr, n: Addr, k: int, s: set<Addr>)
    requires m in h && m !in s
    ensures forall b | b in s && b in h :: b in Fill(h, m, n, k) && Fill(h, m, n, k)[b] == h[b]
  {
  }

  /** On the heap, the descent followed by its one write builds the
      representation of `Shape.Attach`, and the footprint gains the new
      record. */
  lemma {:induction false} AttachRefines(h: Heap, p: Ptr, t: Tree, n: Addr)
    requires Repr(h, p, t) && t.Node?
    requires n in h && n !in Footprint(h, p, t)
    requires h[n].left == Null && h[n].right == Null && h[n].color == Red
    ensures var h' := Fill(h, DescentSlot(h, p, t, h[n].key), n, h[n].key);
      && Repr(h', p, Attach(t, h[n].key))
      && Footprint(h', p, Attach(t, h[n].key)) == Footprint(h, p, t) + {n}
    decreases t
  {
    var k := h[n].key;
    var a := p.addr;
    if k <= h[a].key {
      AttachLeft(h, a, t, n);
    } else {
      AttachRight(h, a, t, n);
    }
  }

  /** The left-going case of `AttachRefines`. */
  lemma {:induction false} AttachLeft(h: Heap, a: Addr, t: Tree, n: Addr)
    requires Repr(h, Ptr(a), t) && t.Node?
    requires n in h && n !in Footprint(h, Ptr(a), t)
    requires h[n].left == Null && h[n].right == Null && h[n].color == Red
    requires h[n].key <= h[a].key
    ensures var h' := Fill(h, DescentSlot(h, Ptr(a), t, h[n].key), n, h[n].key);
      && Repr(h', Ptr(a), Attach(t, h[n].key))
      && Footprint(h', Ptr(a), Attach(t, h[n].key)) == Footprint(h, Ptr(a), t) + {n}
    decreases t, 1
  {
    if h[a].left == Null {
      AttachLeftLeaf(h, a, t, n);
    } else {
      var k := h[n].key;
      ReprUnfold(h, Ptr(a), t);
      var m := DescentSlot(h, Ptr(a), t, k);
      assert m == DescentSlot(h, h[a].left, t.left, k);
      assert m != a && Fill(h, m, n, k)[a] == h[a];
      AttachRefines(h, h[a].left, t.left, n);
      AssembleLeft(h, a, t, n, m);
    }
  }

  /** The left-going case when the left slot of the record at `a` is empty:
      the new record becomes a one-node subtree there. */
  lemma AttachLeftLeaf(h: Heap, a: Addr, t: Tree, n: Addr)
    requires Repr(h, Ptr(a), t) && t.Node?
    requires n in h && n !in Footprint(h, Ptr(a), t)
    requires h[n].left == Null && h[n].right == Null && h[n].color == Red
    requires h[n].key <= h[a].key && h[a].left == Null
    ensures var h' := Fill(h, DescentSlot(h, Ptr(a), t, h[n].key), n, h[n].key);
      && Repr(h', Ptr(a), Attach(t, h[n].key))
      && Footprint(h', Ptr(a), Attach(t, h[n].key)) == Footprint(h, Ptr(a), t) + {n}
  {
    var k := h[n].key;
    ReprUnfold(h, Ptr(a), t);
    var h' := Fill(h, a, n, k);
    assert DescentSlot(h, Ptr(a), t, k) == a && t.left == Nil;
    assert h'[a].left == Ptr(n) && h'[n] == h[n];
    LeafRepr(h', n);
    AssembleLeft(h, a, t, n, a);
  }

  /** The common end of the left-going case: the right subtree is framed
      and the node is rebuilt over the grown left subtree. */
  lemma AssembleLeft(h: Heap, a: Addr, t: Tree, n: Addr, m: Addr)
    requires Repr(h, Ptr(a), t) && t.Node?
    requires n in h && n !in Footprint(h, Ptr(a), t)
    requires h[n].key <= h[a].key
    requires m == a || m in Footprint(h, h[a].left, t.left)
    requires m in h
    requires var h' := Fill(h, m, n, h[n].key);
      && Repr(h', h'[a].left, Attach(t.left, h[n].key))
      && Footprint(h', h'[a].left, Attach(t.left, h[n].key))
         == Footprint(h, h[a].left, t.left) + {n}
    ensures var h' := Fill(h, m, n, h[n].key);
      && Repr(h', Ptr(a), Attach(t, h[n].key))
      && Footprint(h', Ptr(a), Attach(t, h[n].key)) == Footprint(h, Ptr(a), t) + {n}
  {
    var k := h[n].key;
    var h' := Fill(h, m, n, k);
    var l, r := t.left, t.right;
    var fl, fr := Footprint(h, h[a].left, l), Footprint(h, h[a].right, r);
    assert a !in fr && fl !! fr && n !in fr && n != a;
    assert m !in fr;
    FootprintInHeap(h, h[a].right, r);
    FillFrame(h, m, n, k, fr);
    assert Attach(t, k) == Node(Attach(l, k), h[a].key, h[a].color, r);
    GrowLeft(h, h', a, Attach(l, k), r);
  }

  /** The right-going case of `AttachRefines`. */
  lemma {:induction false} AttachRight(h: Heap, a: Addr, t: Tree, n: Addr)
    requires Repr(h, Ptr(a), t) && t.Node?
    requires n in h && n !in Footprint(h, Ptr(a), t)
    requires h[n].left == Null && h[n].right == Null && h[n].color == Red
    requires h[a].key < h[n].key
    ensures var h' := Fill(h, DescentSlot(h, Ptr(a), t, h[n].key), n, h[n].key);
      && Repr(h', Ptr(a), Attach(t, h[n].key))
      && Footprint(h', Ptr(a), Attach(t, h[n].key)) == Footprint(h, Ptr(a), t) + {n}
    decreases t, 1
  {
    if h[a].right == Null {
      AttachRightLeaf(h, a, t, n);
    } else {
      var k := h[n].key;
      ReprUnfold(h, Ptr(a), t);
      var m := DescentSlot(h, Ptr(a), t, k);
      assert m == DescentSlot(h, h[a].right, t.right, k);
      assert m != a && Fill(h, m, n, k)[a] == h[a];
      AttachRefines(h, h[a].right, t.right, n);
      AssembleRight(h, a, t, n, m);
    }
  }

  /** The right-going case when the right slot of the record at `a` is empty:
      the new record becomes a one-node subtree there. */
  lemma AttachRightLeaf(h: Heap, a: Addr, t: Tree, n: Addr)
    requires Repr(h, Ptr(a), t) && t.Node?
    requires n in h && n !in Footprint(h, Ptr(a), t)
    requires h[n].left == Null && h[n].right == Null && h[n].color == Red
    requires h[a].key < h[n].key && h[a].right == Null
    ensures var h' := Fill(h, DescentSlot(h, Ptr(a), t, h[n].key), n, h[n].key);
      && Repr(h', Ptr(a), Attach(t, h[n].key))
      && Footprint(h', Ptr(a), Attach(t, h[n].key)) == Footprint(h, Ptr(a), t) + {n}
  {
    var k := h[n].key;
    ReprUnfold(h, Ptr(a), t);
    var h' := Fill(h, a, n, k);
    assert DescentSlot(h, Ptr(a), t, k) == a && t.right == Nil;
    assert h'[a].right == Ptr(n) && h'[n] == h[n];
    LeafRepr(h', n);
    AssembleRight(h, a, t, n, a);
  }

  /** The common end of the right-going case: the left subtree is framed
      and the node is rebuilt over the grown right subtree. */
  lemma AssembleRight(h: Heap, a: Addr, t: Tree, n: Addr, m: Addr)
    requires Repr(h, Ptr(a), t) && t.Node?
    requires n in h && n !in Footprint(h, Ptr(a), t)
    requires h[a].key < h[n].key
    requires m == a || m in Footprint(h, h[a].right, t.right)
    requires m in h
    requires var h' := Fill(h, m, n, h[n].key);
      && Repr(h', h'[a].right, Attach(t.right, h[n].key))
      && Footprint(h', h'[a].right, Attach(t.right, h[n].key))
         == Footprint(h, h[a].right, t.right) + {n}
    ensures var h' := Fill(h, m, n, h[n].key);
      && Repr(h', Ptr(a), Attach(t, h[n].key))
      && Footprint(h', Ptr(a), Attach(t, h[n].key)) == Footprint(h, Ptr(a), t) + {n}
  {
    var k := h[n].key;
    var h' := Fill(h, m, n, k);
    var l, r := t.left, t.right;
    var fl, fr := Footprint(h, h[a].left, l), Footprint(h, h[a].right, r);
    assert a !in fl && fl !! fr && n !in fl && n != a;
    assert m !in fl;
    FootprintInHeap(h, h[a].left, l);
    FillFrame(h, m, n, k, fl);
    assert Attach(t, k) == Node(l, h[a].key, h[a].color, Attach(r, k));
    GrowRight(h, h', a, l, Attach(r, k));
  }

  /** One step of the descent: the slot sought below `cur` is `cur` itself
      when the chosen child link is NULL, and otherwise the slot sought below
      that child, which represents the matching subtree. */
  lemma DescentStep(h: Heap, cur: Addr, sub: Tree, k: int)
    requires Repr(h, Ptr(cur), sub) && sub.Node?
    ensures k <= h[cur].key && h[cur].left == Null ==> DescentSlot(h, Ptr(cur), sub, k) == cur
    ensures h[cur].key < k && h[cur].right == Null ==> DescentSlot(h, Ptr(cur), sub, k) == cur
    ensures k <= h[cur].key && h[cur].left != Null ==>
      && Repr(h, Ptr(h[cur].left.addr), sub.left) && sub.left.Node?
      && DescentSlot(h, Ptr(h[cur].left.addr), sub.left, k) == DescentSlot(h, Ptr(cur), sub, k)
    ensures h[cur].key < k && h[cur].right != Null ==>
      && Repr(h, Ptr(h[cur].right.addr), sub.right) && sub.right.Node?
      && DescentSlot(h, Ptr(h[cur].right.addr), sub.right, k) == DescentSlot(h, Ptr(cur), sub, k)
  {
  }

  /** `__tree_insert`.  An empty root handle takes the node, coloured
      BLACK.  Otherwise the loop descends, left when the new key is at most
      the current key and right otherwise, and links the node into the first
      NULL slot.  The node's parent link is not written.  `m` is the record
      whose slot was filled. */
  method InsertDescent(h: Heap, root: RbRoot, n: Addr, ghost t: Tree)
    returns (h': Heap, root': RbRoot, r: Addr, ghost m: Addr)
    requires Repr(h, root.tree, t)
    requires n in h && n !in Footprint(h, root.tree, t)
    requires h[n].left == Null && h[n].right == Null && h[n].color == Red
    ensures r == n && h'.Keys == h.Keys && root'.size == root.size
    ensures Repr(h', root'.tree, Insert(t, h[n].key))
    ensures root.tree == Null ==> root'.tree == Ptr(n) && h' == h[n := h[n].(color := Black)]
    ensures root.tree != Null ==> root' == root && h'[n] == h[n]
    ensures root.tree != Null ==> m in Footprint(h, root.tree, t) && FilledAt(h, h', m, n)
  {
    var k := h[n].key;
    if root.tree == Null {
      h' := h[n := h[n].(color := Black)];
      root' := root.(tree := Ptr(n));
      r, m := n, n;
      LeafRepr(h', n);
      return;
    }
    var cur := root.tree.addr;
    ghost var sub := t;
    var found := false;
    while !found
      invariant cur in h && Repr(h, Ptr(cur), sub) && sub.Node?
      invariant DescentSlot(h, Ptr(cur), sub, k) == DescentSlot(h, root.tree, t, k)
      invariant found ==> cur == DescentSlot(h, root.tree, t, k)
      decreases sub, !found
    {
      DescentStep(h, cur, sub, k);
      if k <= h[cur].key {
        if h[cur].left == Null {
          found := true;
        } else {
          cur, sub := h[cur].left.addr, sub.left;
        }
      } else {
        if h[cur].right == Null {
          found := true;
        } else {
          cur, sub := h[cur].right.addr, sub.right;
        }
      }
    }
    assert cur in Footprint(h, root.tree, t) && cur != n;
    AttachRefines(h, root.tree, t, n);
    FillFillsSlot(h, cur, n, k);
    h' := Fill(h, cur, n, k);
    assert h'[n] == h[n];
    root', r, m := root, n, cur;
  }

  // ---------------------------------------------------------------------
  // The fixup
  // ---------------------------------------------------------------------

  /** How a run of the fixup ends: normally, by dereferencing a NULL (or
      foreign) pointer, or by exhausting the iteration budget. */
  datatype Outcome = Done(h: Heap, root: RbRoot) | Fault | OutOfFuel

  /** Where one black-uncle step leaves the loop. */
  datatype Step = Stepped(h: Heap, root: RbRoot, node: Addr) | StepFault

  /** Keys and the set of records are as before. */
  ghost predicate KeysKept(h: Heap, h': Heap)
  {
    h'.Keys == h.Keys && forall a | a in h :: h'[a].key == h[a].key
  }

  /** `root->tree->color = BLACK`, the last statement of the fixup. */
  function BlackenRoot(h: Heap, root: RbRoot): (o: Outcome)
    ensures o != OutOfFuel
    ensures o == Fault <==> !Deref(h, root.tree)
    ensures o.Done? ==> o.root == root && KeysKept(h, o.h)
    ensures o.Done? ==> Deref(o.h, o.root.tree) && o.h[o.root.tree.addr].color == Black
    ensures o.Done? ==> forall a | a in h ::
      o.h[a] == h[a].(color := o.h[a].color) && (Ptr(a) != root.tree ==> o.h[a] == h[a])
  {
    if Deref(h, root.tree) then
      var a := root.tree.addr;
      Done(h[a := h[a].(color := Black)], root)
    else Fault
  }

  /** The red-uncle step: parent and uncle BLACK, grandparent RED, in that
      order.  Only colours change. */
  function RecolourRedUncle(h: Heap, p: Addr, u: Addr, g: Addr): (h': Heap)
    requires p in h && u in h && g in h
    ensures KeysKept(h, h')
    ensures forall a | a in h :: h'[a] == h[a].(color := h'[a].color)
    ensures forall a | a in h && a != p && a != u && a != g :: h'[a] == h[a]
    ensures h'[g].color == Red
    ensures p != g ==> h'[p].color == Black
    ensures u != g ==> h'[u].color == Black
  {
    var h1 := h[p := h[p].(color := Black)];
    var h2 := h1[u := h1[u].(color := Black)];
    h2[g := h2[g].(color := Red)]
  }

  /** The black-uncle step, as the C code writes it in both branches: when
      the node is its parent's right child, move up to the parent and rotate
      left there; then colour the parent BLACK and the grandparent RED and
      rotate right at the grandparent.  The loop goes on at the (possibly
      moved) node. */
  function BlackUncleStep(h: Heap, root: RbRoot, n: Addr): (s: Step)
    requires n in h && Deref(h, h[n].parent) && NullOrIn(h, h[h[n].parent.addr].parent)
    ensures s.Stepped? ==> KeysKept(h, s.h) && s.node in s.h
  {
    var p := h[n].parent.addr;
    var r1 := if h[p].right == Ptr(n) then RotateLeftAt(h, root, p) else Rotated(h, root, n);
    var h1, root1 := r1.h, r1.root;
    var m := if h[p].right == Ptr(n) then p else n;
    if !Deref(h1, h1[m].parent) then StepFault
    else
      var q := h1[m].parent.addr;
      var h2 := h1[q := h1[q].(color := Black)];
      if !Deref(h2, h2[q].parent) then StepFault
      else
        var g := h2[q].parent.addr;
        var h3 := h2[g := h2[g].(color := Red)];
        if !CanRotateRight(h3, g) then StepFault
        else
          var r := RotateRightAt(h3, root1, g);
          Stepped(r.h, r.root, m)
  }

  /** The loop of `tree_validate_insertion`, entered with `fuel` iterations
      left.  It runs while the node is not the top and its parent is RED.
      When it ends normally the top record is BLACK, and no key has changed. */
  function FixupLoop(h: Heap, root: RbRoot, n: Addr, fuel: nat): (o: Outcome)
    requires n in h
    ensures o.Done? ==> KeysKept(h, o.h)
    ensures o.Done? ==> Deref(o.h, o.root.tree) && o.h[o.root.tree.addr].color == Black
    ensures root.tree == Ptr(n) ==> o == BlackenRoot(h, root)
    ensures root.tree != Ptr(n) && !Deref(h, h[n].parent) ==> o == Fault
    ensures root.tree != Ptr(n) && Deref(h, h[n].parent) && h[h[n].parent.addr].color != Red ==>
      o == BlackenRoot(h, root)
    decreases fuel
  {
    if root.tree == Ptr(n) then BlackenRoot(h, root)
    else if !Deref(h, h[n].parent) then Fault
    else
      var p := h[n].parent.addr;
      if h[p].color != Red then BlackenRoot(h, root)
      else if fuel == 0 then OutOfFuel
      else
        var g := Grandparent(h, Ptr(n));
        if !Deref(h, g) then Fault
        else
          var uncle := if Ptr(p) == h[g.addr].left then h[g.addr].right else h[g.addr].left;
          if !Deref(h, uncle) then Fault
          else if h[uncle.addr].color == Red then
            FixupLoop(RecolourRedUncle(h, p, uncle.addr, g.addr), root, g.addr, fuel - 1)
          else
            match BlackUncleStep(h, root, n)
            case StepFault => Fault
            case Stepped(h', root', m) => FixupLoop(h', root', m, fuel - 1)
  }

  /** `tree_validate_insertion`: a node without a parent link leaves at
      once, without touching anything; otherwise the loop runs. */
  function ValidateInsertion(h: Heap, root: RbRoot, n: Addr, fuel: nat): (o: Outcome)
    requires n in h
    ensures h[n].parent == Null ==> o == Done(h, root)
    ensures o.Done? ==> KeysKept(h, o.h)
    ensures o.Done? && h[n].parent != Null ==>
      Deref(o.h, o.root.tree) && o.h[o.root.tree.addr].color == Black
  {
    if h[n].parent == Null then Done(h, root) else FixupLoop(h, root, n, fuel)
  }

  /** The uncle of the node is the sibling of its parent. */
  lemma UncleIsSiblingOfParent(h: Heap, n: Addr)
    requires n in h && Deref(h, h[n].parent) && Deref(h, h[h[n].parent.addr].parent)
    ensures var p := h[n].parent.addr;
      var g := h[p].parent.addr;
      Sibling(h, Ptr(p)) == (if Ptr(p) == h[g].left then h[g].right else h[g].left)
  {
  }

  /** A RED uncle: parent and uncle turn BLACK, the grandparent RED, and
      the loop continues at the grandparent. */
  lemma RedUncleContinuesAtGrandparent(h: Heap, root: RbRoot, n: Addr, fuel: nat)
    requires n in h && root.tree != Ptr(n) && fuel > 0
    requires Deref(h, h[n].parent) && h[h[n].parent.addr].color == Red
    requires Deref(h, h[h[n].parent.addr].parent)
    requires Deref(h, Sibling(h, h[n].parent))
    requires h[Sibling(h, h[n].parent).addr].color == Red
    ensures var p := h[n].parent.addr;
      var g := h[p].parent.addr;
      var u := Sibling(h, Ptr(p)).addr;
      FixupLoop(h, root, n, fuel) == FixupLoop(RecolourRedUncle(h, p, u, g), root, g, fuel - 1)
  {
  }

  /** A BLACK uncle: the loop takes the black-uncle step and continues
      where that step leaves it, or faults when the step does. */
  lemma BlackUncleContinues(h: Heap, root: RbRoot, n: Addr, fuel: nat)
    requires n in h && root.tree != Ptr(n) && fuel > 0
    requires Deref(h, h[n].parent) && h[h[n].parent.addr].color == Red
    requires Deref(h, h[h[n].parent.addr].parent)
    requires Deref(h, Sibling(h, h[n].parent))
    requires h[Sibling(h, h[n].parent).addr].color != Red
    ensures FixupLoop(h, root, n, fuel) ==
      match BlackUncleStep(h, root, n)
      case StepFault => Fault
      case Stepped(h', root', m) => FixupLoop(h', root', m, fuel - 1)
  {
  }

  /** The uncle is dereferenced without a NULL test: a RED parent whose
      parent has no other child makes the fixup fault. */
  lemma AbsentUncleFaults(h: Heap, root: RbRoot, n: Addr, fuel: nat)
    requires n in h && root.tree != Ptr(n) && fuel > 0
    requires Deref(h, h[n].parent) && h[h[n].parent.addr].color == Red
    requires Deref(h, h[h[n].parent.addr].parent)
    requires Sibling(h, h[n].parent) == Null
    ensures FixupLoop(h, root, n, fuel) == Fault
  {
  }

  /** The branch for a parent on the grandparent's right repeats the
      left-branch code instead of mirroring it: with a BLACK uncle on the
      left and the node on the parent's left, it rotates right at the
      grandparent, so the uncle, not the parent, moves up to the top. */
  lemma MirrorBranchLiftsUncle(h: Heap, root: RbRoot, n: Addr, p: Addr, g: Addr, u: Addr)
    requires n in h && p in h && g in h && u in h
    requires n != p && n != g && n != u && p != g && p != u && g != u
    requires h[n].parent == Ptr(p) && h[p].parent == Ptr(g) && h[g].parent == Null
    requires h[p].left == Ptr(n) && h[p].right != Ptr(n)
    requires h[g].left == Ptr(u) && h[g].right == Ptr(p)
    requires root.tree == Ptr(g)
    ensures BlackUncleStep(h, root, n).Stepped?
    ensures BlackUncleStep(h, root, n).root.tree == Ptr(u)
    ensures BlackUncleStep(h, root, n).h[u].right == Ptr(g)
    ensures BlackUncleStep(h, root, n).h[g].right == Ptr(p)
  {
  }

  /** The inner case of the black-uncle step: with the node on the right
      of a parent that sits on the left of the top, the step moves up to the
      parent and rotates left there, then rotates right at the grandparent.
      The node ends on top with the parent on its left and the grandparent
      on its right, and the loop goes on at the parent. */
  lemma LeftRightBlackUncleLiftsNode(h: Heap, root: RbRoot, n: Addr, p: Addr, g: Addr, u: Addr)
    requires n in h && p in h && g in h && u in h
    requires n != p && n != g && n != u && p != g && p != u && g != u
    requires h[n].parent == Ptr(p) && h[p].parent == Ptr(g) && h[g].parent == Null
    requires h[p].right == Ptr(n) && h[p].left != Ptr(n)
    requires h[g].left == Ptr(p) && h[g].right == Ptr(u)
    requires root.tree == Ptr(g)
    ensures BlackUncleStep(h, root, n).Stepped?
    ensures var s := BlackUncleStep(h, root, n);
      s.node == p && s.root.tree == Ptr(n) && s.h[n].left == Ptr(p) && s.h[n].right == Ptr(g)
  {
  }

  /** The colour swap inside the rotation undoes the fixup's own
      recolouring: with the node on the left of a RED parent, the parent on
      the left of the top, and a BLACK uncle, the black-uncle step leaves
      the parent RED on top and the grandparent BLACK below it.  The loop
      then finds the node's parent still RED, looks for a grandparent that
      is no longer there, and faults. */
  lemma LeftLeftBlackUncleFaults(h: Heap, root: RbRoot, n: Addr, p: Addr, g: Addr, u: Addr, fuel: nat)
    requires n in h && p in h && g in h && u in h
    requires n != p && n != g && n != u && p != g && p != u && g != u
    requires h[n].parent == Ptr(p) && h[p].parent == Ptr(g) && h[g].parent == Null
    requires h[p].left == Ptr(n) && h[p].right != Ptr(n)
    requires h[g].left == Ptr(p) && h[g].right == Ptr(u)
    requires h[p].color == Red && h[u].color == Black
    requires root.tree == Ptr(g) && fuel >= 2
    ensures BlackUncleStep(h, root, n).Stepped?
    ensures var s := BlackUncleStep(h, root, n);
      s.root.tree == Ptr(p) && s.node == n && s.h[p].color == Red && s.h[g].color == Black &&
      s.h[n].parent == Ptr(p) && s.h[p].parent == Null
    ensures FixupLoop(h, root, n, fuel) == Fault
  {
    var s := BlackUncleStep(h, root, n);
    assert s.h[n].parent == Ptr(p) && s.h[p].parent == Null;
    assert FixupLoop(h, root, n, fuel) == FixupLoop(s.h, s.root, n, fuel - 1);
  }

  // ---------------------------------------------------------------------
  // The public insert
  // ---------------------------------------------------------------------

  /** The first four statements of `tree_insert`: the node loses its
      links and turns RED. */
  function Reset(h: Heap, n: Addr): (h': Heap)
    requires n in h
    ensures h'.Keys == h.Keys && h'[n].key == h[n].key
    ensures h'[n].left == Null && h'[n].right == Null && h'[n].parent == Null
    ensures h'[n].color == Red
    ensures forall a | a in h && a != n :: h'[a] == h[a]
  {
    h[n := h[n].(left := Null, right := Null, parent := Null, color := Red)]
  }

  /** Resetting a node outside the tree leaves the tree represented. */
  lemma ResetFrame(h: Heap, p: Ptr, t: Tree, n: Addr)
    requires Repr(h, p, t) && n in h && n !in Footprint(h, p, t)
    ensures Repr(Reset(h, n), p, t) && Footprint(Reset(h, n), p, t) == Footprint(h, p, t)
  {
    FootprintInHeap(h, p, t);
    Frame(h, Reset(h, n), p, t);
  }

  /** After a reset and a fill, every record other than the new one has
      its old key, colour and parent link. */
  lemma ResetFillKeepsFields(h: Heap, h': Heap, m: Addr, n: Addr)
    requires n in h && FilledAt(Reset(h, n), h', m, n)
    ensures forall a | a in h && a != n ::
      h'[a].key == h[a].key && h'[a].color == h[a].color && h'[a].parent == h[a].parent
  {
    FilledKeepsFields(Reset(h, n), h', m, n);
  }

  /** `tree_insert`: reset the node to an unlinked RED record, attach it by
      the descent, and run the fixup on it.  The fixup exits at once, so the
      net effect is an ordered attach: the tree gains the key; the new record
      is a leaf with a NULL parent link, BLACK exactly when it became the
      top; apart from it only the one filled slot of `m` changes, so no other
      record changes key, colour or parent link; and the result is always 0.
      The element count is not touched, so it falls one behind both the
      number of keys and the number of records in the tree. */
  method TreeInsert(h: Heap, root: RbRoot, n: Addr, ghost t: Tree)
    returns (h': Heap, root': RbRoot, status: int, ghost m: Addr)
    requires Repr(h, root.tree, t)
    requires n in h && n !in Footprint(h, root.tree, t)
    ensures status == 0
    ensures h'.Keys == h.Keys && root'.size == root.size
    ensures Repr(h', root'.tree, Insert(t, h[n].key))
    ensures h'[n] == RbNode(Null, Null, Null, h[n].key, if root.tree == Null then Black else Red)
    ensures root.tree == Null ==> root'.tree == Ptr(n) && forall a | a in h && a != n :: h'[a] == h[a]
    ensures root.tree != Null ==> root'.tree == root.tree
    ensures root.tree != Null ==>
      m in Footprint(h, root.tree, t) && m != n && FilledAt(Reset(h, n), h', m, n)
    ensures forall a | a in h && a != n ::
      h'[a].key == h[a].key && h'[a].color == h[a].color && h'[a].parent == h[a].parent
    ensures root.size == |InOrder(t)| ==> root'.size + 1 == |InOrder(Insert(t, h[n].key))|
    ensures root.size == |Footprint(h, root.tree, t)| ==>
      root'.size + 1 == |Footprint(h', root'.tree, Insert(t, h[n].key))|
  {
    ResetFrame(h, root.tree, t, n);
    var h0 := Reset(h, n);
    var h1, root1, node;
    h1, root1, node, m := InsertDescent(h0, root, n, t);
    assert h1[n].parent == Null;
    var o := ValidateInsertion(h1, root1, node, |h1|);
    h', root' := o.h, o.root;
    if root.tree != Null {
      ResetFillKeepsFields(h, h', m, n);
    }
    FootprintSize(h, root.tree, t);
    FootprintSize(h', root'.tree, Insert(t, h[n].key));
    status := 0;
  }
}

=== FILE: rotate.dfy ===
/** `tree_rotate_left` and `tree_rotate_right` on the heap, written as the
    sequence of field writes the C code performs, so that aliasing between
    the nodes involved behaves as it would in memory.  Besides relinking,
    each rotation swaps the colours of the two nodes it moves, and it never
    re-parents the inner subtree it transfers. */
module Rotate {
  import opened TreeH
  import opened Shape
  import opened Abstraction

  /** The heap and root after a rotation, and the new subtree top. */
  datatype Rotated = Rotated(h: Heap, root: RbRoot, top: Addr)

  /** What a rotation at `t` dereferences: the node, the child that moves up,
      and the node's parent when there is one. */
  predicate CanRotateLeft(h: Heap, t: Addr)
  {
    t in h && Deref(h, h[t].right) && NullOrIn(h, h[t].parent)
  }

  predicate CanRotateRight(h: Heap, t: Addr)
  {
    t in h && Deref(h, h[t].left) && NullOrIn(h, h[t].parent)
  }

  /** The node, the child moving up and the parent are three different
      records, as they are in any tree. */
  predicate DistinctLeft(h: Heap, t: Addr)
    requires CanRotateLeft(h, t)
  {
    var y := h[t].right.addr;
    y != t && (h[t].parent.Ptr? ==> h[t].parent.addr !in {t, y})
  }

  predicate DistinctRight(h: Heap, t: Addr)
    requires CanRotateRight(h, t)
  {
    var x := h[t].left.addr;
    x != t && (h[t].parent.Ptr? ==> h[t].parent.addr !in {t, x})
  }

  /** `tree_rotate_left(root, t)`. */
  function RotateLeftAt(h: Heap, root: RbRoot, t: Addr): (r: Rotated)
    requires CanRotateLeft(h, t)
    ensures r.h.Keys == h.Keys
    ensures forall a | a in h :: r.h[a].key == h[a].key
    ensures r.top == h[t].right.addr
    ensures DistinctLeft(h, t) ==>
      var y, p := h[t].right.addr, h[t].parent;
      && r.h[t] == h[t].(right := h[y].left, parent := Ptr(y), color := h[y].color)
      && r.h[y] == h[y].(left := Ptr(t), parent := p, color := h[t].color)
      && (p == Null ==> r.root == root.(tree := Ptr(y)))
      && (p.Ptr? ==> r.root == root)
      && (p.Ptr? && h[p.addr].left == Ptr(t) ==> r.h[p.addr] == h[p.addr].(left := Ptr(y)))
      && (p.Ptr? && h[p.addr].left != Ptr(t) ==> r.h[p.addr] == h[p.addr].(right := Ptr(y)))
      && (forall a | a in h && a != t && a != y && Ptr(a) != p :: r.h[a] == h[a])
  {
    var y := h[t].right.addr;
    var parent := Parent(h, Ptr(t));
    var h1 := h[t := h[t].(right := h[y].left)];
    var h2 := h1[y := h1[y].(parent := parent)];
    var h3 := if parent.Ptr? then
                if Ptr(t) == h2[parent.addr].left
                then h2[parent.addr := h2[parent.addr].(left := Ptr(y))]
                else h2[parent.addr := h2[parent.addr].(right := Ptr(y))]
              else h2;
    var root3 := if parent.Ptr? then root else root.(tree := Ptr(y));
    var h4 := h3[y := h3[y].(left := Ptr(t))];
    var h5 := h4[t := h4[t].(parent := Ptr(y))];
    var tmp := h5[t].color;
    var h6 := h5[t := h5[t].(color := h5[y].color)];
    var h7 := h6[y := h6[y].(color := tmp)];
    Rotated(h7, root3, y)
  }

  /** `tree_rotate_right(root, t)`, the mirror image. */
  function RotateRightAt(h: Heap, root: RbRoot, t: Addr): (r: Rotated)
    requires CanRotateRight(h, t)
    ensures r.h.Keys == h.Keys
    ensures forall a | a in h :: r.h[a].key == h[a].key
    ensures r.top == h[t].left.addr
    ensures DistinctRight(h, t) ==>
      var x, p := h[t].left.addr, h[t].parent;
      && r.h[t] == h[t].(left := h[x].right, parent := Ptr(x), color := h[x].color)
      && r.h[x] == h[x].(right := Ptr(t), parent := p, color := h[t].color)
      && (p == Null ==> r.root == root.(tree := Ptr(x)))
      && (p.Ptr? ==> r.root == root)
      && (p.Ptr? && h[p.addr].right == Ptr(t) ==> r.h[p.addr] == h[p.addr].(right := Ptr(x)))
      && (p.Ptr? && h[p.addr].right != Ptr(t) ==> r.h[p.addr] == h[p.addr].(left := Ptr(x)))
      && (forall a | a in h && a != t && a != x && Ptr(a) != p :: r.h[a] == h[a])
  {
    var x := h[t].left.addr;
    var parent := Parent(h, Ptr(t));
    var h1 := h[t := h[t].(left := h[x].right)];
    var h2 := h1[x := h1[x].(parent := parent)];
    var h3 := if parent.Ptr? then
                if Ptr(t) == h2[parent.addr].right
                then h2[parent.addr := h2[parent.addr].(right := Ptr(x))]
                else h2[parent.addr := h2[parent.addr].(left := Ptr(x))]
              else h2;
    var root3 := if parent.Ptr? then root else root.(tree := Ptr(x));
    var h4 := h3[x := h3[x].(right := Ptr(t))];
    var h5 := h4[t := h4[t].(parent := Ptr(x))];
    var tmp := h5[t].color;
    var h6 := h5[t := h5[t].(color := h5[x].color)];
    var h7 := h6[x := h6[x].(color := tmp)];
    Rotated(h7, root3, x)
  }

  /** The links around a left rotation at `t` are consistent: the child
      moving up points back at `t`; `t` is the top when it has no parent, and
      otherwise hangs under its parent, which does not also hold the child. */
  predicate LinkedAroundLeft(h: Heap, root: RbRoot, t: Addr)
    requires CanRotateLeft(h, t)
  {
    var y, p := h[t].right.addr, h[t].parent;
    && DistinctLeft(h, t)
    && h[y].parent == Ptr(t)
    && (p == Null ==> root.tree == Ptr(t))
    && (p.Ptr? ==> ChildOf(h, Ptr(t), p.addr) && !ChildOf(h, Ptr(y), p.addr))
  }

  /** A right rotation at the returned top undoes a left rotation: heap,
      root and colours are all as before. */
  lemma RotateRightUndoesLeft(h: Heap, root: RbRoot, t: Addr)
    requires CanRotateLeft(h, t) && LinkedAroundLeft(h, root, t)
    ensures CanRotateRight(RotateLeftAt(h, root, t).h, RotateLeftAt(h, root, t).top)
    ensures var r := RotateLeftAt(h, root, t);
      RotateRightAt(r.h, r.root, r.top) == Rotated(h, root, t)
  {
    var r := RotateLeftAt(h, root, t);
    var y := r.top;
    assert DistinctRight(r.h, y);
    var s := RotateRightAt(r.h, r.root, y);
    assert s.h == h by {
      forall a | a in h
        ensures s.h[a] == h[a]
      {
      }
    }
  }

  /** The inner subtree handed from the child to `t` keeps its old parent
      link: after the rotation `t`'s right child still names the child that
      moved up as its parent. */
  lemma RotateLeftLeavesInnerParentStale(h: Heap, root: RbRoot, t: Addr)
    requires CanRotateLeft(h, t) && DistinctLeft(h, t)
    requires Linked(h)
    requires Deref(h, h[h[t].right.addr].left)
    ensures var r := RotateLeftAt(h, root, t);
      && r.h[t].right == h[h[t].right.addr].left
      && r.h[r.h[t].right.addr].parent == Ptr(r.top)
      && r.top != t
  {
    var y := h[t].right.addr;
    var b := h[y].left.addr;
    assert h[b].parent == Ptr(y);
    assert h[y].parent == Ptr(t);
  }

  /** On the represented tree a left rotation is `Shape.RotateLeft`: the
      records reachable from the returned top form the rotated tree, whatever
      the node's parent is, provided the parent is outside the subtree. */
  lemma RotateLeftRefines(h: Heap, root: RbRoot, t: Addr, tr: Tree)
    requires Repr(h, Ptr(t), tr) && tr.right.Node?
    requires NullOrIn(h, h[t].parent)
    requires h[t].parent.Ptr? ==> h[t].parent.addr !in Footprint(h, Ptr(t), tr)
    ensures CanRotateLeft(h, t)
    ensures var r := RotateLeftAt(h, root, t);
      && Repr(r.h, Ptr(r.top), Shape.RotateLeft(tr))
      && Footprint(r.h, Ptr(r.top), Shape.RotateLeft(tr)) == Footprint(h, Ptr(t), tr)
  {
    ReprUnfold(h, Ptr(t), tr);
    ReprUnfold(h, h[t].right, tr.right);
    var y := h[t].right.addr;
    var a, b, c := tr.left, tr.right.left, tr.right.right;
    FootprintInHeap(h, h[t].right, tr.right);
    assert DistinctLeft(h, t);
    var r := RotateLeftAt(h, root, t);
    var fa := Footprint(h, h[t].left, a);
    var fb := Footprint(h, h[y].left, b);
    var fc := Footprint(h, h[y].right, c);
    FootprintInHeap(h, h[t].left, a);
    FootprintInHeap(h, h[y].left, b);
    FootprintInHeap(h, h[y].right, c);
    Frame(h, r.h, h[t].left, a);
    Frame(h, r.h, h[y].left, b);
    Frame(h, r.h, h[y].right, c);
    assert Repr(r.h, Ptr(t), Node(a, tr.key, tr.right.color, b));
    assert Footprint(r.h, Ptr(t), Node(a, tr.key, tr.right.color, b)) == {t} + fa + fb;
  }

  /** The mirror of `RotateLeftLeavesInnerParentStale`: the subtree handed
      to `t` as its new left child still names the old left child as parent. */
  lemma RotateRightLeavesInnerParentStale(h: Heap, root: RbRoot, t: Addr)
    requires CanRotateRight(h, t) && DistinctRight(h, t)
    requires Linked(h)
    requires Deref(h, h[h[t].left.addr].right)
    ensures var r := RotateRightAt(h, root, t);
      && r.h[t].left == h[h[t].left.addr].right
      && r.h[r.h[t].left.addr].parent == Ptr(r.top)
      && r.top != t
  {
    var x := h[t].left.addr;
    var b := h[x].right.addr;
    assert h[b].parent == Ptr(x);
    assert h[x].parent == Ptr(t);
  }

  /** On the represented tree a right rotation is `Shape.RotateRight`. */
  lemma RotateRightRefines(h: Heap, root: RbRoot, t: Addr, tr: Tree)
    requires Repr(h, Ptr(t), tr) && tr.left.Node?
    requires NullOrIn(h, h[t].parent)
    requires h[t].parent.Ptr? ==> h[t].parent.addr !in Footprint(h, Ptr(t), tr)
    ensures CanRotateRight(h, t)
    ensures var r := RotateRightAt(h, root, t);
      && Repr(r.h, Ptr(r.top), Shape.RotateRight(tr))
      && Footprint(r.h, Ptr(r.top), Shape.RotateRight(tr)) == Footprint(h, Ptr(t), tr)
  {
    ReprUnfold(h, Ptr(t), tr);
    ReprUnfold(h, h[t].left, tr.left);
    var x := h[t].left.addr;
    var a, b, c := tr.left.left, tr.left.right, tr.right;
    FootprintInHeap(h, h[t].left, tr.left);
    assert DistinctRight(h, t);
    var r := RotateRightAt(h, root, t);
    var fb := Footprint(h, h[x].right, b);
    var fc := Footprint(h, h[t].right, c);
    FootprintInHeap(h, h[x].left, a);
    FootprintInHeap(h, h[x].right, b);
    FootprintInHeap(h, h[t].right, c);
    Frame(h, r.h, h[x].left, a);
    Frame(h, r.h, h[x].right, b);
    Frame(h, r.h, h[t].right, c);
    assert Repr(r.h, Ptr(t), Node(b, tr.key, tr.left.color, c));
    assert Footprint(r.h, Ptr(t), Node(b, tr.key, tr.left.color, c)) == {t} + fb + fc;
  }
}

=== FILE: shape.dfy ===
/** The tree as an immutable value: the descent of `__tree_insert`, the
    public insert, the two rotations (with their colour swap), in-order key
    sequences, the ordering rule, and paths that name one child slot. */
module Shape {
  import opened TreeH

  datatype Tree = Nil | Node(left: Tree, key: int, color: Color, right: Tree)

  /** The keys in left-to-right order. */
  function InOrder(t: Tree): seq<int>
  {
    match t
    case Nil => []
    case Node(l, k, _, r) => InOrder(l) + [k] + InOrder(r)
  }

  /** Every key of `t` is at most `k`. */
  predicate Below(t: Tree, k: int)
  {
    forall x | x in InOrder(t) :: x <= k
  }

  /** Every key of `t` is greater than `k`. */
  predicate Above(t: Tree, k: int)
  {
    forall x | x in InOrder(t) :: k < x
  }

  /** The ordering the descent maintains: keys on the left are at most the
      node's key, keys on the right are strictly greater. */
  predicate IsBst(t: Tree)
  {
    match t
    case Nil => true
    case Node(l, k, _, r) => IsBst(l) && IsBst(r) && Below(l, k) && Above(r, k)
  }

  // ---------------------------------------------------------------------
  // Insertion
  // ---------------------------------------------------------------------

  /** The descent of `__tree_insert` below an existing node: a key at most
      the node's key goes left, a greater key goes right, and a RED leaf
      fills the first empty slot, so the tree grows by one node. */
  function Attach(t: Tree, k: int): (r: Tree)
    ensures r.Node?
    ensures |InOrder(r)| == |InOrder(t)| + 1
  {
    match t
    case Nil => Node(Nil, k, Red, Nil)
    case Node(l, x, c, rt) =>
      if k <= x then Node(Attach(l, k), x, c, rt) else Node(l, x, c, Attach(rt, k))
  }

  /** `tree_insert`: an empty tree gets a BLACK root; otherwise the RED
      leaf is attached by the descent.  Either way the tree grows by one
      node. */
  function Insert(t: Tree, k: int): (r: Tree)
    ensures r.Node?
    ensures t == Nil ==> r == Node(Nil, k, Black, Nil)
    ensures |InOrder(r)| == |InOrder(t)| + 1
  {
    if t == Nil then Node(Nil, k, Black, Nil) else Attach(t, k)
  }

  /** The descent adds exactly the new key: the key multiset grows by `k`
      and nothing else. */
  lemma {:induction false} AttachKeys(t: Tree, k: int)
    ensures multiset(InOrder(Attach(t, k))) == multiset(InOrder(t)) + multiset{k}
  {
    match t
    case Nil =>
    case Node(l, x, c, r) =>
      var sl, sr := InOrder(l), InOrder(r);
      assert multiset(InOrder(t)) == multiset(sl) + multiset{x} + multiset(sr);
      if k <= x {
        AttachKeys(l, k);
        var al := InOrder(Attach(l, k));
        assert InOrder(Attach(t, k)) == al + [x] + sr;
        assert multiset(al + [x] + sr) == multiset(al) + multiset{x} + multiset(sr);
        assert multiset(al) == multiset(sl) + multiset{k};
      } else {
        AttachKeys(r, k);
        var ar := InOrder(Attach(r, k));
        assert InOrder(Attach(t, k)) == sl + [x] + ar;
        assert multiset(sl + [x] + ar) == multiset(sl) + multiset{x} + multiset(ar);
        assert multiset(ar) == multiset(sr) + multiset{k};
      }
  }

  /** Insertion adds exactly the new key, into an empty tree as well. */
  lemma InsertKeys(t: Tree, k: int)
    ensures multiset(InOrder(Insert(t, k))) == multiset(InOrder(t)) + multiset{k}
  {
    if t != Nil {
      AttachKeys(t, k);
    }
  }

  /** Attaching a key no larger than a bound of the tree keeps the bound. */
  lemma AttachBelow(t: Tree, k: int, x: int)
    requires Below(t, x) && k <= x
    ensures Below(Attach(t, k), x)
  {
    forall y | y in InOrder(Attach(t, k))
      ensures y <= x
    {
      var m := multiset(InOrder(Attach(t, k)));
      AttachKeys(t, k);
      assert y in m;
      assert m == multiset(InOrder(t)) + multiset{k};
      if y != k {
        assert y in multiset(InOrder(t));
        assert y in InOrder(t);
      }
    }
  }

  /** Attaching a key above a bound of the tree keeps the bound. */
  lemma AttachAbove(t: Tree, k: int, x: int)
    requires Above(t, x) && x < k
    ensures Above(Attach(t, k), x)
  {
    forall y | y in InOrder(Attach(t, k))
      ensures x < y
    {
      var m := multiset(InOrder(Attach(t, k)));
      AttachKeys(t, k);
      assert y in m;
      assert m == multiset(InOrder(t)) + multiset{k};
      if y != k {
        assert y in multiset(InOrder(t));
        assert y in InOrder(t);
      }
    }
  }

  /** Insertion keeps the ordering rule. */
  lemma {:induction false} AttachBst(t: Tree, k: int)
    requires IsBst(t)
    ensures IsBst(Attach(t, k))
  {
    match t
    case Nil =>
    case Node(l, x, c, r) =>
      if k <= x {
        AttachBst(l, k);
        AttachBelow(l, k, x);
      } else {
        AttachBst(r, k);
        AttachAbove(r, k, x);
      }
  }

  lemma InsertBst(t: Tree, k: int)
    requires IsBst(t)
    ensures IsBst(Insert(t, k))
  {
    if t != Nil {
      AttachBst(t, k);
    }
  }

  /** The index of the first element that is at least `k`, or `|s|` when
      there is none. */
  function FirstGeq(s: seq<int>, k: int): (i: nat)
    ensures i <= |s|
    ensures forall j | 0 <= j < i :: s[j] < k
    ensures i < |s| ==> k <= s[i]
  {
    if s == [] then 0
    else if k <= s[0] then 0
    else 1 + FirstGeq(s[1..], k)
  }

  /** The first-at-least index is the only index with its two defining
      properties. */
  lemma FirstGeqUnique(s: seq<int>, k: int, i: nat)
    requires i <= |s|
    requires forall j | 0 <= j < i :: s[j] < k
    requires i < |s| ==> k <= s[i]
    ensures FirstGeq(s, k) == i
  {
  }

  /** `s` with `k` placed just before its first element that is at least `k`. */
  function PlaceBefore(s: seq<int>, k: int): seq<int>
  {
    var i := FirstGeq(s, k);
    s[..i] + [k] + s[i..]
  }

  /** Placing a key no larger than `x` into `sl + [x] + sr` places it
      within `sl`. */
  lemma PlaceBeforeLeft(sl: seq<int>, x: int, sr: seq<int>, k: int)
    requires k <= x
    ensures PlaceBefore(sl + [x] + sr, k) == PlaceBefore(sl, k) + [x] + sr
  {
    var s := sl + [x] + sr;
    var j := FirstGeq(sl, k);
    if j < |sl| {
      FirstGeqUnique(s, k, j);
      assert s[..j] == sl[..j];
      assert s[j..] == sl[j..] + [x] + sr;
    } else {
      FirstGeqUnique(s, k, |sl|);
      assert s[..|sl|] == sl;
      assert s[|sl|..] == [x] + sr;
    }
  }

  /** Placing a key above `x` into `sl + [x] + sr`, where `sl` is bounded
      by `x`, places it within `sr`. */
  lemma PlaceBeforeRight(sl: seq<int>, x: int, sr: seq<int>, k: int)
    requires forall y | y in sl :: y <= x
    requires x < k
    ensures PlaceBefore(sl + [x] + sr, k) == sl + [x] + PlaceBefore(sr, k)
  {
    var s := sl + [x] + sr;
    var j := FirstGeq(sr, k);
    var i := |sl| + 1 + j;
    forall m | 0 <= m < i
      ensures s[m] < k
    {
      if m < |sl| {
        assert s[m] == sl[m] && sl[m] in sl;
      } else if m > |sl| {
        assert s[m] == sr[m - |sl| - 1];
      }
    }
    if j < |sr| {
      assert s[i] == sr[j];
    }
    FirstGeqUnique(s, k, i);
    assert s[..i] == sl + [x] + sr[..j];
    assert s[i..] == sr[j..];
  }

  /** On an ordered tree the in-order sequence after insertion is the old
      sequence with the new key placed before the first key at least as
      large, so a duplicate lands before the equal keys already present. */
  lemma {:induction false} AttachInOrder(t: Tree, k: int)
    requires IsBst(t)
    ensures InOrder(Attach(t, k)) == PlaceBefore(InOrder(t), k)
  {
    match t
    case Nil =>
    case Node(l, x, c, r) =>
      if k <= x {
        AttachInOrder(l, k);
        PlaceBeforeLeft(InOrder(l), x, InOrder(r), k);
      } else {
        AttachInOrder(r, k);
        PlaceBeforeRight(InOrder(l), x, InOrder(r), k);
      }
  }

  lemma InsertInOrder(t: Tree, k: int)
    requires IsBst(t)
    ensures InOrder(Insert(t, k)) == PlaceBefore(InOrder(t), k)
  {
    if t != Nil {
      AttachInOrder(t, k);
    }
  }

  // ---------------------------------------------------------------------
  // Paths: only one slot changes
  // ---------------------------------------------------------------------

  datatype Dir = L | R

  /** The subtree reached by following `p` (Nil once the path runs off). */
  function SubtreeAt(t: Tree, p: seq<Dir>): Tree
  {
    if p == [] || t == Nil then t
    else if p[0] == L then SubtreeAt(t.left, p[1..])
    else SubtreeAt(t.right, p[1..])
  }

  /** `p` names an empty child slot reached through existing nodes. */
  predicate IsSlot(t: Tree, p: seq<Dir>)
  {
    if p == [] then t == Nil
    else t.Node? && IsSlot(if p[0] == L then t.left else t.right, p[1..])
  }

  /** `t` with the subtree at `p` replaced by `s` (unchanged once the path
      runs off). */
  function ReplaceAt(t: Tree, p: seq<Dir>, s: Tree): Tree
  {
    if p == [] then s
    else if t == Nil then t
    else if p[0] == L then Node(ReplaceAt(t.left, p[1..], s), t.key, t.color, t.right)
    else Node(t.left, t.key, t.color, ReplaceAt(t.right, p[1..], s))
  }

  /** The path the descent follows to its empty slot. */
  function DescentPath(t: Tree, k: int): (p: seq<Dir>)
    ensures IsSlot(t, p)
  {
    match t
    case Nil => []
    case Node(l, x, _, r) =>
      if k <= x then [L] + DescentPath(l, k) else [R] + DescentPath(r, k)
  }

  /** The descent fills exactly the slot its path names with a RED leaf. */
  lemma {:induction false} AttachFillsSlot(t: Tree, k: int)
    ensures Attach(t, k) == ReplaceAt(t, DescentPath(t, k), Node(Nil, k, Red, Nil))
  {
    match t
    case Nil =>
    case Node(l, x, c, r) =>
      if k <= x {
        AttachFillsSlot(l, k);
        assert ([L] + DescentPath(l, k))[1..] == DescentPath(l, k);
      } else {
        AttachFillsSlot(r, k);
        assert ([R] + DescentPath(r, k))[1..] == DescentPath(r, k);
      }
  }

  /** Replacing at a path leaves every subtree off that path, and the key
      and colour of every node on it, as they were; the path itself now
      leads to the replacement. */
  lemma {:induction false} ReplaceAtFrame(t: Tree, p: seq<Dir>, s: Tree, q: seq<Dir>)
    requires IsSlot(t, p)
    ensures q == p ==> SubtreeAt(ReplaceAt(t, p, s), q) == s
    ensures !(q <= p) && !(p <= q) ==> SubtreeAt(ReplaceAt(t, p, s), q) == SubtreeAt(t, q)
    ensures q < p ==> SubtreeAt(t, q).Node? && SubtreeAt(ReplaceAt(t, p, s), q).Node?
    ensures q < p ==> SubtreeAt(ReplaceAt(t, p, s), q).key == SubtreeAt(t, q).key
    ensures q < p ==> SubtreeAt(ReplaceAt(t, p, s), q).color == SubtreeAt(t, q).color
  {
    if p == [] {
    } else if q == [] {
    } else {
      var c := if p[0] == L then t.left else t.right;
      ReplaceAtFrame(c, p[1..], s, q[1..]);
      if q[0] != p[0] {
        assert !(q <= p) && !(p <= q);
      } else {
        assert q == p <==> q[1..] == p[1..];
        assert q <= p <==> q[1..] <= p[1..];
        assert p <= q <==> p[1..] <= q[1..];
        assert q < p <==> q[1..] < p[1..];
      }
    }
  }

  /** Inserting into a non-empty tree changes one empty slot: the slot on
      the descent path now holds the RED leaf; every subtree off the path is
      unchanged; every node on the path keeps its key and colour. */
  lemma InsertChangesOneSlot(t: Tree, k: int, q: seq<Dir>)
    requires t != Nil
    ensures IsSlot(t, DescentPath(t, k))
    ensures SubtreeAt(Insert(t, k), DescentPath(t, k)) == Node(Nil, k, Red, Nil)
    ensures var p := DescentPath(t, k);
      !(q <= p) && !(p <= q) ==> SubtreeAt(Insert(t, k), q) == SubtreeAt(t, q)
    ensures var p := DescentPath(t, k);
      q < p ==> SubtreeAt(Insert(t, k), q).Node? && SubtreeAt(t, q).Node?
                && SubtreeAt(Insert(t, k), q).key == SubtreeAt(t, q).key
                && SubtreeAt(Insert(t, k), q).color == SubtreeAt(t, q).color
  {
    var p := DescentPath(t, k);
    AttachFillsSlot(t, k);
    ReplaceAtFrame(t, p, Node(Nil, k, Red, Nil), q);
    ReplaceAtFrame(t, p, Node(Nil, k, Red, Nil), p);
  }

  // ---------------------------------------------------------------------
  // Rotations
  // ---------------------------------------------------------------------

  /** `tree_rotate_left` on values: the right child takes the node's place,
      the node becomes its left child and receives the right child's former
      left subtree; the two nodes swap colours. */
  function RotateLeft(t: Tree): (r: Tree)
    requires t.Node? && t.right.Node?
    ensures r.Node? && r.left.Node?
    ensures r.key == t.right.key && r.color == t.color
    ensures r.left.key == t.key && r.left.color == t.right.color
    ensures r.left.left == t.left && r.left.right == t.right.left && r.right == t.right.right
    ensures InOrder(r) == InOrder(t)
  {
    var y := t.right;
    Node(Node(t.left, t.key, y.color, y.left), y.key, t.color, y.right)
  }

  /** `tree_rotate_right`, the mirror image of `RotateLeft`. */
  function RotateRight(t: Tree): (r: Tree)
    requires t.Node? && t.left.Node?
    ensures r.Node? && r.right.Node?
    ensures r.key == t.left.key && r.color == t.color
    ensures r.right.key == t.key && r.right.color == t.left.color
    ensures r.left == t.left.left && r.right.left == t.left.right && r.right.right == t.right
    ensures InOrder(r) == InOrder(t)
  {
    var x := t.left;
    Node(x.left, x.key, t.color, Node(x.right, t.key, x.color, t.right))
  }

  /** A right rotation at the returned top undoes a left rotation, and
      conversely; in particular the second colour swap undoes the first. */
  lemma RotationsInverse(t: Tree)
    ensures t.Node? && t.right.Node? ==> RotateRight(RotateLeft(t)) == t
    ensures t.Node? && t.left.Node? ==> RotateLeft(RotateRight(t)) == t
  {
  }

  /** A left rotation keeps the ordering rule. */
  lemma RotateLeftBst(t: Tree)
    requires t.Node? && t.right.Node? && IsBst(t)
    ensures IsBst(RotateLeft(t))
  {
    var a, x, y := t.left, t.key, t.right;
    var b, c := y.left, y.right;
    assert y.key in InOrder(y);
    assert Above(b, x) by {
      forall z | z in InOrder(b) ensures x < z {
        assert z in InOrder(y);
      }
    }
    var n := Node(a, x, y.color, b);
    assert Below(n, y.key) by {
      forall z | z in InOrder(n) ensures z <= y.key {
        if z in InOrder(a) {
          assert z <= x;
        }
      }
    }
  }

  /** A right rotation keeps the ordering rule when the two nodes it moves
      have different keys. */
  lemma RotateRightBst(t: Tree)
    requires t.Node? && t.left.Node? && IsBst(t)
    requires t.left.key != t.key
    ensures IsBst(RotateRight(t))
  {
    var x, y, c := t.left, t.key, t.right;
    var a, b := x.left, x.right;
    assert x.key in InOrder(x);
    assert Below(b, y) by {
      forall z | z in InOrder(b) ensures z <= y {
        assert z in InOrder(x);
      }
    }
    var n := Node(b, y, x.color, c);
    assert Above(n, x.key) by {
      forall z | z in InOrder(n) ensures x.key < z {
        if z in InOrder(c) {
          assert y < z;
        }
      }
    }
  }

  /** With equal keys a right rotation breaks the ordering rule: the equal
      key moves into the right subtree, where keys must be strictly greater. */
  lemma RotateRightEqualKeysBreaksBst()
    ensures IsBst(Node(Node(Nil, 5, Red, Nil), 5, Black, Nil))
    ensures !IsBst(RotateRight(Node(Node(Nil, 5, Red, Nil), 5, Black, Nil)))
  {
    var r := RotateRight(Node(Node(Nil, 5, Red, Nil), 5, Black, Nil));
    assert r == Node(Nil, 5, Black, Node(Nil, 5, Red, Nil));
    assert InOrder(r.right) == [5];
    assert 5 in InOrder(r.right);
    assert !Above(r.right, 5);
  }
}

=== FILE: tree_h.dfy ===
/** The records and inline helpers of the tree header: the two-valued colour,
    the node record with its three links, the root handle, and the parent,
    grandparent, sibling and side helpers.

    Memory is a finite map from addresses to node records; a link is either
    `Null` or the address of a record.  A helper that dereferences a pointer
    requires that pointer to name a record of the heap, exactly where the C
    code dereferences it without a check. */
module TreeH {

  datatype Color = Red | Black

  type Addr = int

  /** A possibly-NULL link. */
  datatype Ptr = Null | Ptr(addr: Addr)

  /** `struct rbtree`, without the unused `root` back-pointer and the opaque
      `data` payload. */
  datatype RbNode = RbNode(left: Ptr, right: Ptr, parent: Ptr, key: int, color: Color)

  /** `struct rbtree_root`: the top node and an element count. */
  datatype RbRoot = RbRoot(tree: Ptr, size: nat)

  type Heap = map<Addr, RbNode>

  /** `p` may be dereferenced in `h`. */
  predicate Deref(h: Heap, p: Ptr)
  {
    p.Ptr? && p.addr in h
  }

  /** `p` is NULL or may be dereferenced. */
  predicate NullOrIn(h: Heap, p: Ptr)
  {
    p == Null || p.addr in h
  }

  /** `p` is one of the two child links of the record at `q`. */
  predicate ChildOf(h: Heap, p: Ptr, q: Addr)
    requires q in h
  {
    h[q].left == p || h[q].right == p
  }

  /** Both non-NULL child links of every record point at records whose
      parent link names that record. */
  ghost predicate Linked(h: Heap)
  {
    forall a | a in h ::
      && (Deref(h, h[a].left) ==> h[h[a].left.addr].parent == Ptr(a))
      && (Deref(h, h[a].right) ==> h[h[a].right.addr].parent == Ptr(a))
  }

  /** `tree_parent`: the parent link of a node, NULL for NULL. */
  function Parent(h: Heap, p: Ptr): (r: Ptr)
    requires NullOrIn(h, p)
    ensures p == Null ==> r == Null
    ensures Deref(h, p) ==> r == h[p.addr].parent
  {
    if p.Ptr? then h[p.addr].parent else Null
  }

  /** `tree_grandparent`: the parent's parent, NULL when the node or its
      parent is absent. */
  function Grandparent(h: Heap, p: Ptr): (r: Ptr)
    requires NullOrIn(h, p) && NullOrIn(h, Parent(h, p))
    ensures r != Null ==> Deref(h, p) && Deref(h, h[p.addr].parent)
    ensures Deref(h, p) && Deref(h, h[p.addr].parent) ==> r == h[h[p.addr].parent.addr].parent
  {
    var parent := Parent(h, p);
    if parent != Null then Parent(h, parent) else Null
  }

  /** `tree_node_has_sibling`: the other child of the parent, NULL when the
      node or its parent is absent.  The result may be NULL also when the
      parent has only one child. */
  function Sibling(h: Heap, p: Ptr): (r: Ptr)
    requires NullOrIn(h, p) && NullOrIn(h, Parent(h, p))
    ensures p == Null || Parent(h, p) == Null ==> r == Null
    ensures Deref(h, p) && Deref(h, h[p.addr].parent) ==>
      var q := h[p.addr].parent.addr;
      r == (if p == h[q].left then h[q].right else h[q].left)
  {
    if p.Ptr? then
      var parent := Parent(h, p);
      if parent.Ptr? then
        if p == h[parent.addr].left then h[parent.addr].right else h[parent.addr].left
      else Null
    else Null
  }

  /** `tree_parent_on_left`: 1 exactly when the node is the right child of
      its parent (so the parent lies to its left in key order), else 0. */
  function ParentOnLeft(h: Heap, a: Addr): (r: int)
    requires a in h && NullOrIn(h, h[a].parent)
    ensures r == 0 || r == 1
    ensures r == 1 <==> Deref(h, h[a].parent) && h[h[a].parent.addr].right == Ptr(a)
  {
    if h[a].parent != Null && h[h[a].parent.addr].right == Ptr(a) then 1 else 0
  }

  /** The grandparent is reached by two parent steps, and is absent as soon
      as one step is. */
  lemma GrandparentIsParentOfParent(h: Heap, p: Ptr)
    requires NullOrIn(h, p) && NullOrIn(h, Parent(h, p))
    ensures Grandparent(h, p) == Parent(h, Parent(h, p))
    ensures Parent(h, p) == Null ==> Grandparent(h, p) == Null
  {
  }

  /** Siblings are symmetric: when `a` hangs under its parent and its
      sibling `b` points back at the same parent, the sibling of `b` is `a`. */
  lemma SiblingSymmetric(h: Heap, a: Addr)
    requires a in h && Deref(h, h[a].parent)
    requires ChildOf(h, Ptr(a), h[a].parent.addr)
    requires Deref(h, Sibling(h, Ptr(a)))
    requires h[Sibling(h, Ptr(a)).addr].parent == h[a].parent
    ensures Sibling(h, Sibling(h, Ptr(a))) == Ptr(a)
  {
  }

  /** For a node that hangs under a parent with two different child links,
      `tree_parent_on_left` answers 1 exactly when the sibling is the
      parent's left child. */
  lemma ParentOnLeftIffSiblingIsLeft(h: Heap, a: Addr)
    requires a in h && Deref(h, h[a].parent)
    requires ChildOf(h, Ptr(a), h[a].parent.addr)
    requires h[h[a].parent.addr].left != h[h[a].parent.addr].right
    ensures ParentOnLeft(h, a) == 1 <==> Sibling(h, Ptr(a)) == h[h[a].parent.addr].left
    ensures ParentOnLeft(h, a) == 0 <==> Sibling(h, Ptr(a)) == h[h[a].parent.addr].right
  {
  }

  /** With consistent links, a node's children name it as their parent, so
      the grandparent of any child of a child of `a` is `a`. */
  lemma GrandparentOfGrandchild(h: Heap, a: Addr, c: Ptr, g: Ptr)
    requires Linked(h) && a in h
    requires Deref(h, c) && ChildOf(h, c, a)
    requires Deref(h, g) && ChildOf(h, g, c.addr)
    ensures Grandparent(h, g) == Ptr(a)
  {
    assert h[c.addr].parent == Ptr(a);
    assert h[g.addr].parent == c;
  }
}
